=== FILE: README.md ===
# minisynth keyboard and parameter binder, in Dafny

A model of the logic inside the `Synthesizer` and `Controls` components of a
browser synthesizer. Computer-keyboard keys and pointer gestures on rendered
piano keys play pitches on one monophonic voice of an audio engine. A control
panel edits the waveform, the ADSR envelope, the volume and a mute flag, and
every edit is pushed to the voice.

The model is an immutable `State` with three parts: the set of pressed
pitches, the parameter record, and the log of commands sent to the voice.
Every event is one pure transition, `Step`. The audio engine is not modelled.
It is seen only through its commands: `Attack(note)`, a pitch-less `Release`,
`SetParams(waveform, envelope)` and `SetVolume(Silent | Db(v))`. Replaying
the log (`Voice.Replay`) gives what the voice is sounding and which settings
and level it holds. That is how properties such as "releasing any key
silences the voice" are stated.

Modules:

- `Wrappers`: `Option`.
- `Keyboard`: the 13-entry key table `keyMap` (Synthesizer.tsx:6-20) as the
  map `KeyMap`, and as the ordered list `Bindings` the keys are rendered from
  (Synthesizer.tsx:131). `Lower` is `toLowerCase`, `Lookup` is
  `keyMap[e.key.toLowerCase()]` (Synthesizer.tsx:86, 93) and `IsBlack` is the
  black-key rule `note.includes('#')` (Synthesizer.tsx:132).
- `Params`: the parameter record `Params`, its start-up values `Default`
  (Synthesizer.tsx:25-31) and the declared slider domains. The setters
  `WithWaveform`, `WithVolume`, `WithAttack`, `WithDecay`, `WithSustain`,
  `WithRelease` and `ToggleMute` are what the controls call (Controls.tsx:49,
  62, 73, 90, 104, 118, 132). `EffectiveLevel` is the level the volume effect
  sends (Synthesizer.tsx:65) and `VolumeIcon` the mute button's icon
  (Controls.tsx:37).
- `Voice`: the command vocabulary `Command` and `Replay`, which folds a log
  into the voice's state.
- `Synth`: `PlayNote` and `StopNote` (Synthesizer.tsx:69-81), the keyboard
  handlers `HandleKeyDown` (Synthesizer.tsx:84-90) and `HandleKeyUp`
  (Synthesizer.tsx:92-97), and the two synchronising effects
  `SettingsEffect` and `LevelEffect` (Synthesizer.tsx:53-67). `Commit`
  stores an edited record and runs both effects. `Edit` maps each control
  event to its setter. `Step` handles one event, including the pointer
  wiring (Synthesizer.tsx:139-141), and `Run` a sequence of them. `Inv` is
  the invariant.
- `Scenarios`: two worked event sequences.

Representation choices:

- Envelope values are integers in hundredths, because the sliders step by
  0.01. Attack 0.1 s is `10`.
- The volume is whole decibels, because the volume slider has the default
  step 1.
- `-Infinity` decibels is the `Silent` level.
- An effect runs only when one of its dependencies changed. Setting a field
  to its current value re-renders nothing, so it sends nothing.
- The initial log holds one `SetParams` and one `SetVolume`. They stand for
  the construction of the voice with the default settings plus the first run
  of the two effects after mount.

Behaviour of the code that a reader may not expect:

- A key-down of an already pressed pitch is not guarded. Only the event's
  auto-repeat flag is checked, so a second attack is sent (`BoundKeyDownAttacks`).
- Releasing a pitch that is not pressed still sends `Release`.
- The pointer-leave handler fires on every leave of a key, pressed or not. It
  is identical to pointer-up (`LeaveIsUp`). Moving the pointer off any key
  therefore silences a note held on the keyboard (`ReleaseSilencesVoice`).
- A key press followed by its release gives back the old pressed set minus
  the pitch. It equals the old set only when the pitch was not pressed before
  (`KeyRoundTrip`).
- Each slider or selector change is its own combined update carrying all
  five values. Five edits therefore send five updates, not one
  (`Scenarios.EnvelopeEdits`).

## Model

| member | source | states |
|---|---|---|
| Keyboard.EntriesInTable | src/components/Synthesizer.tsx:6-20 | every rendered key, in `Object.entries` order, is a table key bound to the pitch it is rendered with |
| Keyboard.EntriesCoverTable | src/components/Synthesizer.tsx:131 | the rendered keys are exactly the table's keys and the rendered pitches exactly its pitches |
| Keyboard.LookupFindsEntry | src/components/Synthesizer.tsx:86 | `keyMap[key.toLowerCase()]` is defined exactly when the lower-cased key is a rendered key, and then yields the pitch rendered with that key |
| Keyboard.LookupInNotes | src/components/Synthesizer.tsx:86-88 | every pitch a key event can play is the pitch of a rendered key |
| Keyboard.BindingsShape | src/components/Synthesizer.tsx:6-20 | the table has 13 entries, each key one lower-case letter, each pitch non-empty (so `if (note)` is a presence test) |
| Keyboard.KeysDistinct | src/components/Synthesizer.tsx:6-20 | no key is bound twice |
| Keyboard.NotesDistinct | src/components/Synthesizer.tsx:6-20 | no pitch is bound to two keys |
| Keyboard.DistinctImageCount | src/components/Synthesizer.tsx:6-20 | a component that differs between every two entries takes as many values as there are entries |
| Keyboard.TableSize | src/components/Synthesizer.tsx:6-20 | 13 distinct keys map to 13 distinct pitches |
| Keyboard.LowerIdempotent | src/components/Synthesizer.tsx:86 | lower-casing a lower-cased key changes nothing |
| Keyboard.LookupCaseInsensitive | src/components/Synthesizer.tsx:86 | a key and its lower-cased form look up the same pitch |
| Keyboard.LookupHitIsOneChar | src/components/Synthesizer.tsx:86 | named keys such as "Shift" never hit the table; only one-character keys do |
| Keyboard.LookupBinding | src/components/Synthesizer.tsx:6-20 | every entry is found by its key and by that key's upper-case letter ('A' and 'a' both give C4) |
| Keyboard.KelvinSignPlaysC5 | src/components/Synthesizer.tsx:86 | the Kelvin sign, whose lower case is 'k', plays C5 just as "k" and "K" do |
| Keyboard.BlackKeys | src/components/Synthesizer.tsx:132 | the keys rendered black are exactly those bound to w, e, t, y and u |
| Keyboard.BlackNotes | src/components/Synthesizer.tsx:132 | the black pitches are exactly the five sharps |
| Params.ParseWaveform | src/components/Controls.tsx:49-52 | a selector value reads back to a waveform exactly when it is one of the four options, and that waveform's name is the value |
| Params.WaveformRoundTrip | src/components/Controls.tsx:52 | every waveform is offered and its name reads back to it |
| Params.WaveformOptionsDistinct | src/components/Controls.tsx:52 | the selector offers exactly four distinct shapes |
| Params.DefaultWellFormed | src/components/Synthesizer.tsx:25-31 | the start-up values lie inside every control's declared domain |
| Params.EffectiveLevel | src/components/Synthesizer.tsx:65 | the output level is silence exactly when muted, and otherwise the stored volume |
| Params.VolumeIcon | src/components/Controls.tsx:37 | the icon is VolumeX exactly when muted; unmuted, it is Volume1 exactly when the volume is below -20 |
| Params.IconAgreesWithLevel | src/components/Controls.tsx:37 | the crossed-out icon shows exactly when the voice is silenced; -20 dB shows Volume2 and -21 dB shows Volume1 |
| Params.WithWaveform | src/components/Controls.tsx:49 | the selector writes the waveform only, and keeps the record inside its domains |
| Params.WithVolume | src/components/Controls.tsx:68-73 | the volume slider writes the volume only; a value in [-40, 0] keeps the record inside its domains |
| Params.WithAttack | src/components/Controls.tsx:84-90 | the attack slider writes the attack only; a value in [0.01, 2] keeps the record inside its domains |
| Params.WithDecay | src/components/Controls.tsx:98-104 | the decay slider writes the decay only; a value in [0.01, 1] keeps the record inside its domains |
| Params.WithSustain | src/components/Controls.tsx:112-118 | the sustain slider writes the sustain only; a value in [0, 1] keeps the record inside its domains |
| Params.WithRelease | src/components/Controls.tsx:126-132 | the release slider writes the release only; a value in [0.01, 5] keeps the record inside its domains |
| Params.ToggleMute | src/components/Controls.tsx:62 | the mute button flips the flag and changes no other field, in particular not the stored volume |
| Params.ToggleMuteTwice | src/components/Controls.tsx:62 | two clicks restore the record; muting gives silence and unmuting gives back the stored volume |
| Voice.ReplayAppend | src/components/Synthesizer.tsx:69-81 | a command sent after a log acts on the voice as the log left it |
| Voice.ReplayProvenance | src/components/Synthesizer.tsx:55-81 | whatever the voice sounds or holds was sent to it by some command |
| Voice.SoundingIsLastAttack | src/components/Synthesizer.tsx:70-75 | the voice sounds a pitch exactly when the last attack-or-release sent was an attack of that pitch (most recent attack wins) |
| Voice.SilentAfterLastRelease | src/components/Synthesizer.tsx:75 | after a release with no later attack the voice is silent, whatever pitch the release was meant for |
| Synth.PlayNote | src/components/Synthesizer.tsx:69-72 | one attack of the pitch is sent, the pitch joins the pressed set, and the voice now sounds it |
| Synth.StopNote | src/components/Synthesizer.tsx:74-81 | one pitch-less release is sent, the pitch leaves the pressed set, and the voice is silent whatever it sounded |
| Synth.CommitKeepsVoice | src/components/Synthesizer.tsx:52-67 | a parameter change keeps the voice's settings and level equal to the record's and never attacks or releases |
| Synth.Step | src/components/Synthesizer.tsx:52-141 | handling one event only appends to the command log, and by at most one command |
| Synth.Run | src/components/Synthesizer.tsx:52-141 | a sequence of events only appends to the log, at most one command per event |
| Synth.InitialInv | src/components/Synthesizer.tsx:24-31 | the start state has nothing pressed, the default record, a silent voice at -12 dB, and satisfies the invariant |
| Synth.StepInv | src/components/Synthesizer.tsx:69-97 | every deliverable event keeps pressed pitches rendered, parameters in range, the voice in step with the record, and a sounding pitch pressed |
| Synth.RunInv | src/components/Synthesizer.tsx:83-106 | every state reachable by deliverable events satisfies the invariant |
| Synth.StepActive | src/components/Synthesizer.tsx:69-81 | one event marks a pitch pressed when it presses it (pointer-down or fresh bound key-down), unmarks it when it lifts it (pointer-up, pointer-leave or bound key-up), and otherwise leaves its mark alone |
| Synth.ActiveIsLastTouch | src/components/Synthesizer.tsx:69-81 | after any run of events a pitch is shown pressed exactly when the last event touching it pressed it, or none touched it and it was pressed before |
| Synth.VoiceLevelFollowsMute | src/components/Synthesizer.tsx:63-67 | in every reachable state the voice's level is silence when muted and the stored volume otherwise |
| Synth.RepeatIgnored | src/components/Synthesizer.tsx:85 | a key-down with the repeat flag changes nothing and sends nothing |
| Synth.UnmappedKeyIgnored | src/components/Synthesizer.tsx:86-97 | a key absent from the table after lower-casing changes nothing and sends nothing, down or up |
| Synth.KeyCaseInsensitive | src/components/Synthesizer.tsx:86-95 | key events behave as their lower-cased key; "A" and "a" both play C4 |
| Synth.BoundKeyEvents | src/components/Synthesizer.tsx:84-97 | a fresh key-down of a bound key is `playNote` of its pitch and its key-up is `stopNote` of it |
| Synth.BoundKeyDownAttacks | src/components/Synthesizer.tsx:69-72 | a bound key-down sends exactly one attack and adds the pitch, also when the pitch is already pressed |
| Synth.KeyRoundTrip | src/components/Synthesizer.tsx:71-95 | down then up of a bound key leaves old set minus the pitch (equal to the old set exactly when it was not pressed), the same record, a silent voice, and sends attack then release |
| Synth.PointerActsAsKey | src/components/Synthesizer.tsx:139-140 | pointer-down on a key sends Attack(n) and marks n pressed; pointer-up sends Release and unmarks n; the record is untouched; both equal the key-down and key-up of the computer key bound to n |
| Synth.LeaveIsUp | src/components/Synthesizer.tsx:140-141 | pointer-leave and pointer-up give identical state and identical commands |
| Synth.ReleaseSilencesVoice | src/components/Synthesizer.tsx:140-141 | releasing the pointer on, or leaving, any on-screen key silences the voice even while another pitch stays pressed |
| Synth.KeyUpSilencesVoice | src/components/Synthesizer.tsx:92-97 | releasing any bound computer key silences the voice even while another pitch stays pressed |
| Synth.ControlsNeverTrigger | src/components/Synthesizer.tsx:52-67 | control events never touch the pressed set and never attack or release |
| Synth.SettingsChangeSendsCombinedUpdate | src/components/Synthesizer.tsx:53-60 | the waveform selector and each envelope slider store their value in their own field only; a change then sends one update carrying all five current values, and an unchanged value sends nothing |
| Synth.LevelChangeSendsLevel | src/components/Synthesizer.tsx:63-67 | the volume slider stores its value and the mute button flips the flag, nothing else changing; a change sends the new effective level, and a mute click keeps the stored volume |
| Synth.MuteTwiceRestores | src/components/Controls.tsx:62 | two mute clicks restore the record and the voice's level |
| Scenarios.OverlappingKeysCutOff | src/components/Synthesizer.tsx:69-97 | overlapping two keys and releasing the first silences the voice while the second stays pressed |
| Scenarios.OverlapFromStartUp | src/components/Synthesizer.tsx:69-97 | from start-up, "a" then "w" sounds C4 then C#4; releasing "a" leaves C#4 shown pressed but silent, and four commands are sent |
| Scenarios.EnvelopeEdits | src/components/Synthesizer.tsx:53-60 | five edits from the defaults send five complete updates, the last carrying all five new values |

## Left out

- The audio engine (oscillator, envelope and audio graph) is not modelled. It is represented only by the commands sent to it.
- React scheduling is not modelled: re-renders, effect ordering across renders and `setState` batching. Each event is one atomic transition.
- Window listener registration and removal, and `dispose` on unmount, are left out. They are lifecycle plumbing with no effect on the state machine.
- The null `synthRef` before mount is left out. The voice is assumed to exist, so the `?.` calls always happen.
- Envelope values are integer hundredths, not floating point. Volume is whole decibels. `-Infinity` is the `Silent` level.
- Keyboard.LowerChar: lower-cases only A-Z and the Kelvin sign and keeps every other character. No other character lower-cases to a single ASCII letter, so table lookups agree with `toLowerCase`. The lower-cased string itself is not modelled beyond that.
- Lookups of JavaScript's inherited object properties (`keyMap["constructor"]`) are left out. No keyboard `key` value has such a name.
- `src/components/Key.tsx` (CSS class choice and rendering) is left out, as are the key labels (`toUpperCase`) and the value formatting (`toFixed`, capitalised option labels).
- The sliders' clamping and snapping of out-of-range input is done by the browser. It is modelled only as the domain condition on deliverable events (`Synth.ValidEvent`).

=== FILE: keyboard.dfy ===
/**
 * The fixed binding of computer-keyboard keys to pitches, the case-folding
 * lookup both keyboard handlers perform, and the rule that decides which
 * on-screen keys are black.
 */
module Keyboard {
  import opened Wrappers

  /** A pitch identifier: note letter, optional sharp, octave ("C4", "F#4"). */
  type Note = string

  /** One entry of the key table: a keyboard event's `key` value and its pitch. */
  type Binding = (string, Note)

  /** The key table `keyMap`: a keyboard event's `key` value to its pitch.
      The handlers look keys up in it; the on-screen keys are drawn from its
      entries in declaration order, which a map does not keep, so that order
      is `Bindings` below. `EntriesInTable` and `EntriesCoverTable` prove the
      two list the same thirteen pairs. */
  const KeyMap: map<string, Note> := map[
    "a" := "C4", "w" := "C#4", "s" := "D4", "e" := "D#4", "d" := "E4",
    "f" := "F4", "t" := "F#4", "g" := "G4", "y" := "G#4", "h" := "A4",
    "u" := "A#4", "j" := "B4", "k" := "C5"
  ]

  /** The table's entries in declaration order, which is the order
      `Object.entries` yields them and the on-screen keys are rendered in. */
  const Bindings: seq<Binding> := [
    ("a", "C4"), ("w", "C#4"), ("s", "D4"), ("e", "D#4"), ("d", "E4"),
    ("f", "F4"), ("t", "F#4"), ("g", "G4"), ("y", "G#4"), ("h", "A4"),
    ("u", "A#4"), ("j", "B4"), ("k", "C5")
  ]

  /** The key of an entry. */
  function KeyOf(b: Binding): string { b.0 }

  /** The pitch of an entry. */
  function NoteOf(b: Binding): Note { b.1 }

  /** One component of each of a list of entries. `KeysOf` and `NotesOf`
      below are this set for `KeyOf` and `NoteOf`, written out as set
      comprehensions over the component itself: the solver works through
      those directly, whereas going through the function value `f` makes the
      lemmas about the literal table (`EntriesCoverTable`, `BlackNotes`)
      fail. `TableSize` proves the two forms equal. */
  function Image(bs: seq<Binding>, f: Binding -> string): set<string> {
    set b | b in bs :: f(b)
  }

  /** The keys a list of entries binds. */
  function KeysOf(bs: seq<Binding>): set<string> {
    set b | b in bs :: b.0
  }

  /** The pitches a list of entries binds. */
  function NotesOf(bs: seq<Binding>): set<Note> {
    set b | b in bs :: b.1
  }

  /** Every pitch that has a key: the pitches of the rendered keys. */
  const Notes: set<Note> := NotesOf(Bindings)

  /** Each rendered entry is an entry of the table. */
  lemma EntriesInTable()
    ensures forall i :: 0 <= i < |Bindings| ==>
      Bindings[i].0 in KeyMap && KeyMap[Bindings[i].0] == Bindings[i].1
  {
  }

  /** Every key of the table is rendered, and every rendered key is in the table. */
  lemma EntriesCoverTable()
    ensures KeysOf(Bindings) == KeyMap.Keys
    ensures Notes == KeyMap.Values
  {
    EntriesInTable();
    assert KeysOf(Bindings) <= KeyMap.Keys;
    assert Notes <= KeyMap.Values;
  }

  /** `toLowerCase` on one character. Besides A-Z, the only character whose
      lower case is a single ASCII letter is U+212A KELVIN SIGN, which becomes 'k'.
      Every other character is kept: its lower case is not an ASCII letter,
      so keeping it cannot change the outcome of a lookup in the table. */
  function LowerChar(c: char): char {
    if 'A' <= c <= 'Z' then (c as int + 32) as char
    else if c == '\U{212A}' then 'k'
    else c
  }

  /** `toLowerCase` on a string, one character at a time. */
  function Lower(s: string): (r: string)
    ensures |r| == |s|
  {
    if s == [] then [] else [LowerChar(s[0])] + Lower(s[1..])
  }

  /** The lookup `keyMap[e.key.toLowerCase()]` of both keyboard handlers. */
  function Lookup(key: string): Option<Note> {
    var k := Lower(key);
    if k in KeyMap then Some(KeyMap[k]) else None
  }

  /** The lookup hits exactly when the lower-cased key is a rendered key, and
      then yields the pitch rendered with it. */
  lemma LookupFindsEntry(key: string)
    ensures Lookup(key).Some? <==> Lower(key) in KeysOf(Bindings)
    ensures Lookup(key).Some? ==> (Lower(key), Lookup(key).value) in Bindings
  {
    EntriesCoverTable();
    if Lookup(key).Some? {
      var i :| 0 <= i < |Bindings| && Bindings[i].0 == Lower(key);
      EntriesInTable();
      assert Bindings[i] == (Lower(key), Lookup(key).value);
    }
  }

  /** A pitch the lookup yields belongs to a rendered key. */
  lemma LookupInNotes(key: string)
    requires Lookup(key).Some?
    ensures Lookup(key).value in Notes
  {
    EntriesCoverTable();
  }

  /** A rendered key is black exactly when its pitch carries a sharp. */
  predicate IsBlack(n: Note) {
    '#' in n
  }

  /** Thirteen entries, each key one lower-case letter, each pitch non-empty
      (so the handlers' truthiness test on a found pitch always passes). */
  lemma BindingsShape()
    ensures |Bindings| == 13
    ensures forall i :: 0 <= i < |Bindings| ==>
      |Bindings[i].0| == 1 && 'a' <= Bindings[i].0[0] <= 'z' && Bindings[i].1 != ""
  {
  }

  /** No key is bound twice. */
  lemma KeysDistinct()
    ensures forall i, j :: 0 <= i < j < |Bindings| ==> Bindings[i].0 != Bindings[j].0
  {
  }

  /** No pitch has two keys. */
  lemma NotesDistinct()
    ensures forall i, j :: 0 <= i < j < |Bindings| ==> Bindings[i].1 != Bindings[j].1
  {
  }

  /** A component that differs between every two entries takes as many
      values as there are entries. */
  lemma {:induction false} DistinctImageCount(bs: seq<Binding>, f: Binding -> string)
    requires forall i, j :: 0 <= i < j < |bs| ==> f(bs[i]) != f(bs[j])
    ensures |Image(bs, f)| == |bs|
  {
    if bs != [] {
      assert Image(bs, f) == {f(bs[0])} + Image(bs[1..], f) by {
        assert forall b :: b in bs <==> b == bs[0] || b in bs[1..];
      }
      assert f(bs[0]) !in Image(bs[1..], f) by {
        forall b | b in bs[1..] ensures f(b) != f(bs[0]) {
          var j :| 0 <= j < |bs[1..]| && bs[1..][j] == b;
          assert bs[j + 1] == b;
        }
      }
      DistinctImageCount(bs[1..], f);
    }
  }

  /** Thirteen distinct keys are bound to thirteen distinct pitches. */
  lemma TableSize()
    ensures |KeysOf(Bindings)| == 13 && |Notes| == 13
  {
    BindingsShape();
    KeysDistinct();
    NotesDistinct();
    DistinctImageCount(Bindings, KeyOf);
    DistinctImageCount(Bindings, NoteOf);
    assert KeysOf(Bindings) == Image(Bindings, KeyOf);
    assert Notes == Image(Bindings, NoteOf);
  }

  /** Lower-casing is idempotent. */
  lemma {:induction false} LowerIdempotent(s: string)
    ensures Lower(Lower(s)) == Lower(s)
  {
    if s != [] {
      LowerIdempotent(s[1..]);
      assert Lower(s)[1..] == Lower(s[1..]);
    }
  }

  /** The lookup ignores case: a key and its lower-cased form find the same pitch. */
  lemma LookupCaseInsensitive(key: string)
    ensures Lookup(Lower(key)) == Lookup(key)
  {
    LowerIdempotent(key);
  }

  /** Only one-character keys can hit the table ("Shift", "Enter" and other
      named keys never do). */
  lemma LookupHitIsOneChar(key: string)
    requires Lookup(key).Some?
    ensures |key| == 1
  {
    BindingsShape();
  }

  /** The upper-case form of a lower-case ASCII letter. */
  function UpperChar(c: char): char {
    if 'a' <= c <= 'z' then (c as int - 32) as char else c
  }

  /** A lower-case letter and its upper-case form both lower-case to the letter. */
  lemma LowerLetter(c: char)
    requires 'a' <= c <= 'z'
    ensures Lower([c]) == [c]
    ensures Lower([UpperChar(c)]) == [c]
  {
    assert Lower([c]) == [LowerChar(c)] + Lower([]);
    assert Lower([UpperChar(c)]) == [LowerChar(UpperChar(c))] + Lower([]);
  }

  /** Every entry is found by its own key and by the upper-case letter of it. */
  lemma LookupBinding(i: int, c: char)
    requires 0 <= i < |Bindings| && Bindings[i].0 == [c]
    ensures Lookup([c]) == Some(Bindings[i].1)
    ensures Lookup([UpperChar(c)]) == Some(Bindings[i].1)
  {
    EntriesInTable();
    LowerLetter(c);
  }

  /** The Kelvin sign lower-cases to 'k', so it plays what "k" and "K" play. */
  lemma KelvinSignPlaysC5()
    ensures Lookup("\U{212A}") == Some("C5")
    ensures Lookup("K") == Some("C5") && Lookup("k") == Some("C5")
  {
    assert Lower("\U{212A}") == "k" by {
      assert Lower("\U{212A}") == [LowerChar('\U{212A}')] + Lower([]);
    }
    LookupBinding(12, 'k');
  }

  /** The black keys are the ones bound to w, e, t, y and u. */
  lemma BlackKeys()
    ensures forall i :: 0 <= i < |Bindings| ==>
      (IsBlack(Bindings[i].1) <==> Bindings[i].0 in {"w", "e", "t", "y", "u"})
  {
  }

  /** Of the thirteen pitches, exactly the five sharps are on black keys. */
  lemma BlackNotes()
    ensures (set n | n in Notes && IsBlack(n)) == {"C#4", "D#4", "F#4", "G#4", "A#4"}
  {
  }
}

=== FILE: params.dfy ===
/**
 * The instrument-parameter record behind the control panel: waveform,
 * envelope, volume and mute, the domains the panel's controls can produce,
 * the setters the controls call, the effective output level and the icon
 * of the mute button.
 */
module Params {
  import opened Wrappers

  /** The four oscillator shapes the waveform selector offers. */
  datatype Waveform = Sine | Square | Sawtooth | Triangle

  /** The selector's option values, in display order. */
  const WaveformOptions: seq<string> := ["sine", "square", "sawtooth", "triangle"]

  /** The option value (and the oscillator type name) of a waveform. */
  function WaveformName(w: Waveform): string {
    match w
    case Sine => "sine"
    case Square => "square"
    case Sawtooth => "sawtooth"
    case Triangle => "triangle"
  }

  /** Reading back the value of a selected option. Selector events carry the
      `Waveform` already; this function and the lemmas after it justify that,
      by showing the four option values and the datatype correspond one to one. */
  function ParseWaveform(s: string): (r: Option<Waveform>)
    ensures r.Some? <==> s in WaveformOptions
    ensures r.Some? ==> WaveformName(r.value) == s
  {
    if s == "sine" then Some(Sine)
    else if s == "square" then Some(Square)
    else if s == "sawtooth" then Some(Sawtooth)
    else if s == "triangle" then Some(Triangle)
    else None
  }

  /** Every waveform is offered, under a name that reads back to it. */
  lemma WaveformRoundTrip(w: Waveform)
    ensures WaveformName(w) in WaveformOptions
    ensures ParseWaveform(WaveformName(w)) == Some(w)
  {
  }

  /** The four options are distinct, so the selector offers exactly four shapes. */
  lemma WaveformOptionsDistinct()
    ensures |WaveformOptions| == 4
    ensures forall i, j :: 0 <= i < j < |WaveformOptions| ==> WaveformOptions[i] != WaveformOptions[j]
  {
  }

  /** Envelope stage values in hundredths (the sliders step by 0.01):
      attack, decay and release in hundredths of a second, sustain in
      hundredths of full level. */
  datatype Envelope = Envelope(attack: int, decay: int, sustain: int, release: int)

  /** The parameter state: volume in whole decibels (the volume slider has
      the default step 1), and the mute flag. */
  datatype Params = Params(waveform: Waveform, envelope: Envelope, volume: int, muted: bool)

  /** The closed interval a slider is declared with. */
  datatype Range = Range(lo: int, hi: int) {
    predicate Contains(v: int) {
      lo <= v <= hi
    }
  }

  const VolumeRange := Range(-40, 0)
  const AttackRange := Range(1, 200)
  const DecayRange := Range(1, 100)
  const SustainRange := Range(0, 100)
  const ReleaseRange := Range(1, 500)

  /** Every value lies in the domain of the control that writes it. */
  predicate WellFormed(p: Params) {
    && VolumeRange.Contains(p.volume)
    && AttackRange.Contains(p.envelope.attack)
    && DecayRange.Contains(p.envelope.decay)
    && SustainRange.Contains(p.envelope.sustain)
    && ReleaseRange.Contains(p.envelope.release)
  }

  /** The start-up values: sine, attack 0.1 s, decay 0.2 s, sustain 0.5,
      release 0.5 s, volume -12 dB, not muted. */
  const Default := Params(Sine, Envelope(10, 20, 50, 50), -12, false)

  lemma DefaultWellFormed()
    ensures WellFormed(Default)
  {
  }

  /** The level the voice is set to: silence (minus infinity decibels) or a level in decibels. */
  datatype Level = Silent | Db(db: int)

  /** Mute overrides the stored volume without replacing it. */
  function EffectiveLevel(p: Params): (l: Level)
    ensures l == Silent <==> p.muted
    ensures !p.muted ==> l == Db(p.volume)
  {
    if p.muted then Silent else Db(p.volume)
  }

  /** The three icons of the mute button. */
  datatype Icon = VolumeX | Volume1 | Volume2

  /** The icon shown on the mute button. */
  function VolumeIcon(p: Params): (icon: Icon)
    ensures icon == VolumeX <==> p.muted
    ensures !p.muted ==> (icon == Volume1 <==> p.volume < -20)
  {
    if p.muted then VolumeX else if p.volume < -20 then Volume1 else Volume2
  }

  /** The crossed-out icon is shown exactly when the voice is silenced, and
      the boundary volume -20 dB already shows the louder icon. */
  lemma IconAgreesWithLevel(p: Params)
    ensures VolumeIcon(p) == VolumeX <==> EffectiveLevel(p) == Silent
    ensures VolumeIcon(p.(muted := false, volume := -20)) == Volume2
    ensures VolumeIcon(p.(muted := false, volume := -21)) == Volume1
  {
  }

  function WithWaveform(p: Params, w: Waveform): (r: Params)
    ensures r.waveform == w
    ensures r.envelope == p.envelope && r.volume == p.volume && r.muted == p.muted
    ensures WellFormed(p) ==> WellFormed(r)
  {
    p.(waveform := w)
  }

  function WithVolume(p: Params, v: int): (r: Params)
    ensures r.volume == v
    ensures r.waveform == p.waveform && r.envelope == p.envelope && r.muted == p.muted
    ensures WellFormed(p) && VolumeRange.Contains(v) ==> WellFormed(r)
  {
    p.(volume := v)
  }

  function WithAttack(p: Params, v: int): (r: Params)
    ensures r.envelope.attack == v
    ensures r.envelope.decay == p.envelope.decay && r.envelope.sustain == p.envelope.sustain
    ensures r.envelope.release == p.envelope.release
    ensures r.waveform == p.waveform && r.volume == p.volume && r.muted == p.muted
    ensures WellFormed(p) && AttackRange.Contains(v) ==> WellFormed(r)
  {
    p.(envelope := p.envelope.(attack := v))
  }

  function WithDecay(p: Params, v: int): (r: Params)
    ensures r.envelope.decay == v
    ensures r.envelope.attack == p.envelope.attack && r.envelope.sustain == p.envelope.sustain
    ensures r.envelope.release == p.envelope.release
    ensures r.waveform == p.waveform && r.volume == p.volume && r.muted == p.muted
    ensures WellFormed(p) && DecayRange.Contains(v) ==> WellFormed(r)
  {
    p.(envelope := p.envelope.(decay := v))
  }

  function WithSustain(p: Params, v: int): (r: Params)
    ensures r.envelope.sustain == v
    ensures r.envelope.attack == p.envelope.attack && r.envelope.decay == p.envelope.decay
    ensures r.envelope.release == p.envelope.release
    ensures r.waveform == p.waveform && r.volume == p.volume && r.muted == p.muted
    ensures WellFormed(p) && SustainRange.Contains(v) ==> WellFormed(r)
  {
    p.(envelope := p.envelope.(sustain := v))
  }

  function WithRelease(p: Params, v: int): (r: Params)
    ensures r.envelope.release == v
    ensures r.envelope.attack == p.envelope.attack && r.envelope.decay == p.envelope.decay
    ensures r.envelope.sustain == p.envelope.sustain
    ensures r.waveform == p.waveform && r.volume == p.volume && r.muted == p.muted
    ensures WellFormed(p) && ReleaseRange.Contains(v) ==> WellFormed(r)
  {
    p.(envelope := p.envelope.(release := v))
  }

  /** The mute button: flips the flag and nothing else, in particular not the stored volume. */
  function ToggleMute(p: Params): (r: Params)
    ensures r.muted == !p.muted
    ensures r.volume == p.volume && r.waveform == p.waveform && r.envelope == p.envelope
    ensures WellFormed(p) ==> WellFormed(r)
  {
    p.(muted := !p.muted)
  }

  /** Pressing the mute button twice restores every parameter, and the
      effective level returns to the stored volume. */
  lemma ToggleMuteTwice(p: Params)
    ensures ToggleMute(ToggleMute(p)) == p
    ensures !p.muted ==> EffectiveLevel(ToggleMute(p)) == Silent
    ensures !p.muted ==> EffectiveLevel(ToggleMute(ToggleMute(p))) == Db(p.volume)
  {
  }
}

=== FILE: scenarios.dfy ===
/**
 * Two worked event sequences: the monophonic cut-off when two keys overlap,
 * and a round of envelope and waveform edits. Both start from any state
 * that looks like start-up in the respects that matter, `Initial` included.
 */
module Scenarios {
  import opened Wrappers
  import opened Keyboard
  import opened Params
  import opened Voice
  import opened Synth

  lemma AppendFour<T>(a: seq<T>, w: T, x: T, y: T, z: T)
    ensures a + [w] + [x] + [y] + [z] == a + [w, x, y, z]
  {
    assert [w] + [x] + [y] + [z] == [w, x, y, z];
  }

  /** Press one bound key, press a second one while holding the first,
      release the first, release the second (with "a" and "w": C4, then C#4).
      Releasing the first key silences the voice although the second pitch is
      still shown pressed: the release is not tied to a pitch. */
  lemma OverlappingKeysCutOff(
    s: State, s1: State, s2: State, s3: State, s4: State,
    k1: string, k2: string, n1: Note, n2: Note)
    requires s.active == {}
    requires Lookup(k1) == Some(n1) && Lookup(k2) == Some(n2) && n1 != n2
    requires s1 == Step(s, KeyDown(k1, false)) && s2 == Step(s1, KeyDown(k2, false))
    requires s3 == Step(s2, KeyUp(k1)) && s4 == Step(s3, KeyUp(k2))
    ensures s1.active == {n1} && Replay(s1.log).sounding == Some(n1)
    ensures s2.active == {n1, n2} && Replay(s2.log).sounding == Some(n2)
    ensures s3.active == {n2} && Replay(s3.log).sounding == None
    ensures s4.active == {} && Replay(s4.log).sounding == None
    ensures s4.params == s.params
    ensures s4.log == s.log + [Attack(n1), Attack(n2), Release, Release]
  {
    BoundKeyEvents(s, k1, n1);
    BoundKeyEvents(s1, k2, n2);
    BoundKeyEvents(s2, k1, n1);
    BoundKeyEvents(s3, k2, n2);
    AppendFour(s.log, Attack(n1), Attack(n2), Release, Release);
  }

  /** One settings edit that changes the record to `p`. */
  lemma OneEdit(s: State, s': State, e: Event, p: Params)
    requires e.SelectWaveform? || e.SlideAttack? || e.SlideDecay? || e.SlideSustain? || e.SlideRelease?
    requires s' == Step(s, e) && Edit(s.params, e) == p
    requires (p.waveform, p.envelope) != (s.params.waveform, s.params.envelope)
    ensures s'.params == p && s'.log == s.log + [SetParams(p.waveform, p.envelope)]
  {
    SettingsChangeSendsCombinedUpdate(s, e);
  }

  /** Set attack 0.5 s, decay 0.3 s, sustain 0.8, release 1.2 s, then the
      square wave, starting from the default parameters: every edit is its
      own combined update, so the voice gets five updates, each complete,
      the last one carrying the five new values. */
  lemma EnvelopeEdits(s: State, s1: State, s2: State, s3: State, s4: State, s5: State)
    requires s.params == Default
    requires s1 == Step(s, SlideAttack(50)) && s2 == Step(s1, SlideDecay(30))
    requires s3 == Step(s2, SlideSustain(80)) && s4 == Step(s3, SlideRelease(120))
    requires s5 == Step(s4, SelectWaveform(Square))
    ensures s1.log == s.log + [SetParams(Sine, Envelope(50, 20, 50, 50))]
    ensures s2.log == s1.log + [SetParams(Sine, Envelope(50, 30, 50, 50))]
    ensures s3.log == s2.log + [SetParams(Sine, Envelope(50, 30, 80, 50))]
    ensures s4.log == s3.log + [SetParams(Sine, Envelope(50, 30, 80, 120))]
    ensures s5.log == s4.log + [SetParams(Square, Envelope(50, 30, 80, 120))]
    ensures s5.params == Params(Square, Envelope(50, 30, 80, 120), -12, false)
    ensures Replay(s5.log).settings == Some((Square, Envelope(50, 30, 80, 120)))
  {
    OneEdit(s, s1, SlideAttack(50), Params(Sine, Envelope(50, 20, 50, 50), -12, false));
    OneEdit(s1, s2, SlideDecay(30), Params(Sine, Envelope(50, 30, 50, 50), -12, false));
    OneEdit(s2, s3, SlideSustain(80), Params(Sine, Envelope(50, 30, 80, 50), -12, false));
    OneEdit(s3, s4, SlideRelease(120), Params(Sine, Envelope(50, 30, 80, 120), -12, false));
    OneEdit(s4, s5, SelectWaveform(Square), Params(Square, Envelope(50, 30, 80, 120), -12, false));
    ReplayAppend(s4.log, SetParams(Square, Envelope(50, 30, 80, 120)));
  }

  /** The overlap from start-up with "a" and "w": C4, then C#4, and the
      release of "a" cuts C#4 off while it is still shown pressed. */
  lemma OverlapFromStartUp(s1: State, s2: State, s3: State, s4: State)
    requires s1 == Step(Initial, KeyDown("a", false)) && s2 == Step(s1, KeyDown("w", false))
    requires s3 == Step(s2, KeyUp("a")) && s4 == Step(s3, KeyUp("w"))
    ensures s2.active == {"C4", "C#4"} && Replay(s2.log).sounding == Some("C#4")
    ensures s3.active == {"C#4"} && Replay(s3.log).sounding == None
    ensures s4.active == {} && s4.params == Default
    ensures s4.log == Initial.log + [Attack("C4"), Attack("C#4"), Release, Release]
  {
    LookupBinding(0, 'a');
    LookupBinding(1, 'w');
    InitialInv();
    OverlappingKeysCutOff(Initial, s1, s2, s3, s4, "a", "w", "C4", "C#4");
  }
}

=== FILE: synth.dfy ===
/**
 * The synthesizer component: the set of pressed pitches, the parameter
 * record and the command log of its voice, and the handlers for keyboard,
 * pointer and control-panel events, each one atomic transition.
 */
module Synth {
  import opened Wrappers
  import opened Keyboard
  import opened Params
  import opened Voice

  /** `active` drives the pressed look of the keys; `log` is every command
      sent to the voice so far. */
  datatype State = State(active: set<Note>, params: Params, log: seq<Command>)

  /** After mount: no key pressed, default parameters, and the voice given
      the default settings and the default level (the construction and the
      first run of the two synchronising effects). */
  const Initial := State({}, Default,
    [SetParams(Default.waveform, Default.envelope), SetVolume(EffectiveLevel(Default))])

  /** The voice holds exactly the settings and the effective level of the record. */
  predicate Synced(s: State) {
    && Replay(s.log).settings == Some((s.params.waveform, s.params.envelope))
    && Replay(s.log).level == Some(EffectiveLevel(s.params))
  }

  /** A pitch the voice is sounding is shown as pressed. */
  predicate SoundingIsActive(s: State) {
    Replay(s.log).sounding.Some? ==> Replay(s.log).sounding.value in s.active
  }

  /** What every reachable state satisfies: only rendered pitches are
      pressed, every parameter is inside its control's domain, the voice is
      in step with the record, and a sounding pitch is shown pressed. */
  predicate Inv(s: State) {
    && s.active <= Notes
    && WellFormed(s.params)
    && Synced(s)
    && SoundingIsActive(s)
  }

  /** `playNote`: attack the pitch and mark it pressed. Nothing prevents a
      second attack of a pitch that is already pressed. */
  function PlayNote(s: State, n: Note): (r: State)
    ensures r.active == s.active + {n} && r.params == s.params
    ensures r.log == s.log + [Attack(n)]
    ensures Replay(r.log) == Replay(s.log).(sounding := Some(n))
  {
    ReplayAppend(s.log, Attack(n));
    s.(active := s.active + {n}, log := s.log + [Attack(n)])
  }

  /** `stopNote`: release the voice, whatever it sounds, and unmark the pitch. */
  function StopNote(s: State, n: Note): (r: State)
    ensures r.active == s.active - {n} && r.params == s.params
    ensures r.log == s.log + [Release]
    ensures Replay(r.log) == Replay(s.log).(sounding := None)
  {
    ReplayAppend(s.log, Release);
    s.(active := s.active - {n}, log := s.log + [Release])
  }

  /** `handleKeyDown`: auto-repeat events are dropped; otherwise the
      lower-cased key is looked up and a bound pitch is played. (Every bound
      pitch is a non-empty string, so the truthiness test is a presence test.) */
  function HandleKeyDown(s: State, key: string, repeat: bool): State {
    if repeat then s
    else match Lookup(key)
      case Some(n) => PlayNote(s, n)
      case None => s
  }

  /** `handleKeyUp`: the lower-cased key is looked up and a bound pitch is stopped. */
  function HandleKeyUp(s: State, key: string): State {
    match Lookup(key)
    case Some(n) => StopNote(s, n)
    case None => s
  }

  /** The parameter effect: the combined settings are re-sent when the
      waveform or an envelope stage changed. */
  function SettingsEffect(prev: Params, p: Params): seq<Command> {
    if (p.waveform, p.envelope) != (prev.waveform, prev.envelope)
    then [SetParams(p.waveform, p.envelope)] else []
  }

  /** The volume effect: the effective level is re-sent when the volume or
      the mute flag changed. */
  function LevelEffect(prev: Params, p: Params): seq<Command> {
    if (p.volume, p.muted) != (prev.volume, prev.muted)
    then [SetVolume(EffectiveLevel(p))] else []
  }

  /** The commit of a new parameter record, followed by the two effects in
      their declaration order. */
  function Commit(s: State, p: Params): State {
    State(s.active, p, s.log + SettingsEffect(s.params, p) + LevelEffect(s.params, p))
  }

  /** A commit keeps the voice in step with the record and never attacks or
      releases. */
  lemma CommitKeepsVoice(s: State, p: Params)
    ensures Replay(Commit(s, p).log).sounding == Replay(s.log).sounding
    ensures forall i :: |s.log| <= i < |Commit(s, p).log| ==> !IsTrigger(Commit(s, p).log[i])
    ensures Synced(s) ==> Synced(Commit(s, p))
  {
    var log1 := s.log + SettingsEffect(s.params, p);
    if SettingsEffect(s.params, p) != [] {
      assert log1 == s.log + [SetParams(p.waveform, p.envelope)];
      ReplayAppend(s.log, SetParams(p.waveform, p.envelope));
    } else {
      assert log1 == s.log;
    }
    if LevelEffect(s.params, p) != [] {
      assert Commit(s, p).log == log1 + [SetVolume(EffectiveLevel(p))];
      ReplayAppend(log1, SetVolume(EffectiveLevel(p)));
    } else {
      assert Commit(s, p).log == log1;
    }
  }

  /** The events the component reacts to. Pointer events name the pitch of
      the key they happen on; control events carry the value the control produced. */
  datatype Event =
    | KeyDown(key: string, repeat: bool)
    | KeyUp(key: string)
    | PointerDown(note: Note)
    | PointerUp(note: Note)
    | PointerLeave(note: Note)
    | SelectWaveform(waveform: Waveform)
    | SlideVolume(volume: int)
    | SlideAttack(attack: int)
    | SlideDecay(decay: int)
    | SlideSustain(sustain: int)
    | SlideRelease(release: int)
    | ClickMute

  /** What the page can deliver: pointer events happen on rendered keys, and
      each slider yields a value inside its declared range. */
  predicate ValidEvent(e: Event) {
    match e
    case PointerDown(n) => n in Notes
    case PointerUp(n) => n in Notes
    case PointerLeave(n) => n in Notes
    case SlideVolume(v) => VolumeRange.Contains(v)
    case SlideAttack(v) => AttackRange.Contains(v)
    case SlideDecay(v) => DecayRange.Contains(v)
    case SlideSustain(v) => SustainRange.Contains(v)
    case SlideRelease(v) => ReleaseRange.Contains(v)
    case _ => true
  }

  /** The setter a control event calls; other events leave the record alone. */
  function Edit(p: Params, e: Event): Params {
    match e
    case SelectWaveform(w) => WithWaveform(p, w)
    case SlideVolume(v) => WithVolume(p, v)
    case SlideAttack(v) => WithAttack(p, v)
    case SlideDecay(v) => WithDecay(p, v)
    case SlideSustain(v) => WithSustain(p, v)
    case SlideRelease(v) => WithRelease(p, v)
    case ClickMute => ToggleMute(p)
    case _ => p
  }

  /** One event, handled to completion. It sends at most one command: the
      log only grows, and by one entry at most. */
  function Step(s: State, e: Event): (r: State)
    ensures s.log <= r.log && |r.log| <= |s.log| + 1
  {
    match e
    case KeyDown(key, repeat) => HandleKeyDown(s, key, repeat)
    case KeyUp(key) => HandleKeyUp(s, key)
    case PointerDown(n) => PlayNote(s, n)
    case PointerUp(n) => StopNote(s, n)
    case PointerLeave(n) => StopNote(s, n)
    case _ => Commit(s, Edit(s.params, e))
  }

  /** A sequence of events, handled in delivery order. */
  function Run(s: State, events: seq<Event>): (r: State)
    ensures s.log <= r.log && |r.log| <= |s.log| + |events|
    decreases |events|
  {
    if events == [] then s else Run(Step(s, events[0]), events[1..])
  }

  /** At start-up no key is pressed, the record holds the defaults, and the
      voice is silent but holds the default settings and level. */
  lemma InitialInv()
    ensures Inv(Initial)
    ensures Initial.active == {} && Initial.params == Default
    ensures Replay(Initial.log).sounding == None
    ensures Replay(Initial.log).level == Some(Db(-12))
  {
    var settings := SetParams(Default.waveform, Default.envelope);
    var level := SetVolume(EffectiveLevel(Default));
    assert Replay([settings]) == Unset.(settings := Some((Default.waveform, Default.envelope))) by {
      ReplayAppend([], settings);
    }
    assert Initial.log == [settings] + [level];
    ReplayAppend([settings], level);
    DefaultWellFormed();
  }

  /** Every event the page can deliver keeps the invariant. */
  lemma StepInv(s: State, e: Event)
    requires Inv(s) && ValidEvent(e)
    ensures Inv(Step(s, e))
  {
    match e
    case KeyDown(key, repeat) =>
      if !repeat && Lookup(key).Some? {
        LookupInNotes(key);
      }
    case KeyUp(key) =>
    case PointerDown(_) =>
    case PointerUp(_) =>
    case PointerLeave(_) =>
    case _ => CommitKeepsVoice(s, Edit(s.params, e));
  }

  /** Every reachable state keeps the invariant. */
  lemma {:induction false} RunInv(s: State, events: seq<Event>)
    requires Inv(s)
    requires forall i :: 0 <= i < |events| ==> ValidEvent(events[i])
    ensures Inv(Run(s, events))
    decreases |events|
  {
    if events != [] {
      StepInv(s, events[0]);
      RunInv(Step(s, events[0]), events[1..]);
    }
  }

  /** An event that presses pitch `n`: the pointer going down on its key,
      or a fresh key-down of a computer key bound to it. */
  predicate Presses(e: Event, n: Note) {
    e == PointerDown(n) || (e.KeyDown? && !e.repeat && Lookup(e.key) == Some(n))
  }

  /** An event that lifts pitch `n`: the pointer going up on or leaving its
      key, or the key-up of a computer key bound to it. */
  predicate Lifts(e: Event, n: Note) {
    e == PointerUp(n) || e == PointerLeave(n) || (e.KeyUp? && Lookup(e.key) == Some(n))
  }

  /** An event that presses or lifts pitch `n`. */
  predicate Touches(e: Event, n: Note) {
    Presses(e, n) || Lifts(e, n)
  }

  /** No event from position `k` on touches `n`. */
  predicate UntouchedFrom(events: seq<Event>, k: nat, n: Note) {
    forall j :: k <= j < |events| ==> !Touches(events[j], n)
  }

  /** The last event that touches `n` presses it. */
  predicate PressedLast(events: seq<Event>, n: Note) {
    exists i :: 0 <= i < |events| && Presses(events[i], n) && UntouchedFrom(events, i + 1, n)
  }

  /** One event marks `n` pressed when it presses `n`, unmarks it when it
      lifts `n`, and otherwise leaves its mark alone. */
  lemma StepActive(s: State, e: Event, n: Note)
    ensures n in Step(s, e).active <==> Presses(e, n) || (n in s.active && !Lifts(e, n))
  {
  }

  /** After any run of events, a pitch is shown pressed exactly when the last
      event touching it pressed it, or when none touched it and it was
      pressed to begin with. */
  lemma {:induction false} ActiveIsLastTouch(s: State, events: seq<Event>, n: Note)
    ensures n in Run(s, events).active <==>
      PressedLast(events, n) || (n in s.active && UntouchedFrom(events, 0, n))
    decreases |events|
  {
    if events != [] {
      var e, rest := events[0], events[1..];
      StepActive(s, e, n);
      ActiveIsLastTouch(Step(s, e), rest, n);
      assert forall k: nat :: UntouchedFrom(rest, k, n) <==> UntouchedFrom(events, k + 1, n) by {
        forall k: nat ensures UntouchedFrom(rest, k, n) <==> UntouchedFrom(events, k + 1, n) {
          assert forall j :: k <= j < |rest| ==> rest[j] == events[j + 1];
        }
      }
      assert UntouchedFrom(events, 0, n) <==> !Touches(e, n) && UntouchedFrom(events, 1, n);
      if PressedLast(rest, n) {
        var i :| 0 <= i < |rest| && Presses(rest[i], n) && UntouchedFrom(rest, i + 1, n);
        assert events[i + 1] == rest[i];
        assert PressedLast(events, n);
      }
      if PressedLast(events, n) {
        var i :| 0 <= i < |events| && Presses(events[i], n) && UntouchedFrom(events, i + 1, n);
        if i > 0 {
          assert rest[i - 1] == events[i];
          assert PressedLast(rest, n);
        }
      }
    }
  }

  /** The voice's level is silence exactly when muted, and otherwise the
      stored volume. */
  lemma VoiceLevelFollowsMute(s: State)
    requires Inv(s)
    ensures s.params.muted ==> Replay(s.log).level == Some(Silent)
    ensures !s.params.muted ==> Replay(s.log).level == Some(Db(s.params.volume))
  {
  }

  /** A key event with the auto-repeat flag set changes nothing and sends nothing. */
  lemma RepeatIgnored(s: State, key: string)
    ensures Step(s, KeyDown(key, true)) == s
  {
  }

  /** A key absent from the table, after lower-casing, changes nothing and
      sends nothing, on the way down and on the way up. */
  lemma UnmappedKeyIgnored(s: State, key: string, repeat: bool)
    requires Lower(key) !in KeyMap
    ensures Step(s, KeyDown(key, repeat)) == s
    ensures Step(s, KeyUp(key)) == s
  {
  }

  /** Key events ignore case: "A" plays what "a" plays. */
  lemma KeyCaseInsensitive(s: State, key: string, repeat: bool)
    ensures Step(s, KeyDown(key, repeat)) == Step(s, KeyDown(Lower(key), repeat))
    ensures Step(s, KeyUp(key)) == Step(s, KeyUp(Lower(key)))
    ensures Step(s, KeyDown("A", false)) == Step(s, KeyDown("a", false)) == PlayNote(s, "C4")
  {
    LookupCaseInsensitive(key);
    LookupBinding(0, 'a');
  }

  /** A bound key's events are `playNote` and `stopNote` of its pitch. */
  lemma BoundKeyEvents(s: State, key: string, n: Note)
    requires Lookup(key) == Some(n)
    ensures Step(s, KeyDown(key, false)) == PlayNote(s, n)
    ensures Step(s, KeyUp(key)) == StopNote(s, n)
  {
  }

  /** A fresh key-down of a bound key attacks its pitch once and marks it
      pressed, also when the pitch is already pressed. */
  lemma BoundKeyDownAttacks(s: State, key: string, n: Note)
    requires Lookup(key) == Some(n)
    ensures Step(s, KeyDown(key, false)).active == s.active + {n}
    ensures Step(s, KeyDown(key, false)).log == s.log + [Attack(n)]
    ensures Replay(Step(s, KeyDown(key, false)).log).sounding == Some(n)
    ensures n in s.active ==> Step(s, KeyDown(key, false)).active == s.active
  {
    assert Step(s, KeyDown(key, false)) == PlayNote(s, n);
  }

  /** A bound key pressed and released leaves the record unchanged, the
      pitch unmarked, the voice silent, and has sent one attack and one
      release. The pressed set is back to what it was exactly when the pitch
      was not pressed before. */
  lemma KeyRoundTrip(s: State, key: string, n: Note)
    requires Lookup(key) == Some(n)
    ensures Step(Step(s, KeyDown(key, false)), KeyUp(key)).active == s.active - {n}
    ensures Step(Step(s, KeyDown(key, false)), KeyUp(key)).active == s.active <==> n !in s.active
    ensures Step(Step(s, KeyDown(key, false)), KeyUp(key)).params == s.params
    ensures Step(Step(s, KeyDown(key, false)), KeyUp(key)).log == s.log + [Attack(n), Release]
    ensures Replay(Step(Step(s, KeyDown(key, false)), KeyUp(key)).log).sounding == None
  {
    assert s.log + [Attack(n)] + [Release] == s.log + [Attack(n), Release];
  }

  /** Pressing an on-screen key with the pointer attacks its pitch and marks
      it pressed, and releasing the pointer on it sends a release and unmarks
      it: the same as pressing and releasing the computer key bound to it. */
  lemma PointerActsAsKey(s: State, key: string, n: Note)
    requires Lookup(key) == Some(n)
    ensures Step(s, PointerDown(n)).active == s.active + {n}
    ensures Step(s, PointerDown(n)).log == s.log + [Attack(n)]
    ensures Step(s, PointerUp(n)).active == s.active - {n}
    ensures Step(s, PointerUp(n)).log == s.log + [Release]
    ensures Step(s, PointerDown(n)).params == s.params && Step(s, PointerUp(n)).params == s.params
    ensures Step(s, PointerDown(n)) == Step(s, KeyDown(key, false))
    ensures Step(s, PointerUp(n)) == Step(s, KeyUp(key))
  {
  }

  /** The pointer leaving a key acts exactly as the pointer being released on it. */
  lemma LeaveIsUp(s: State, n: Note)
    ensures Step(s, PointerLeave(n)) == Step(s, PointerUp(n))
  {
  }

  /** Releasing, or leaving, any on-screen key silences the single voice,
      even when it sounds another pitch that stays marked pressed. */
  lemma ReleaseSilencesVoice(s: State, n: Note, m: Note)
    requires Replay(s.log).sounding == Some(m) && m in s.active && m != n
    ensures Replay(Step(s, PointerUp(n)).log).sounding == None
    ensures Replay(Step(s, PointerLeave(n)).log).sounding == None
    ensures m in Step(s, PointerUp(n)).active
    ensures m in Step(s, PointerLeave(n)).active
  {
  }

  /** Releasing any bound computer key silences the single voice in the same
      way, even when it sounds another pitch that stays marked pressed. */
  lemma KeyUpSilencesVoice(s: State, key: string, n: Note, m: Note)
    requires Lookup(key) == Some(n)
    requires Replay(s.log).sounding == Some(m) && m in s.active && m != n
    ensures Replay(Step(s, KeyUp(key)).log).sounding == None
    ensures m in Step(s, KeyUp(key)).active
  {
  }

  /** Control events never attack or release and never touch the pressed set. */
  lemma ControlsNeverTrigger(s: State, e: Event)
    requires !e.KeyDown? && !e.KeyUp? && !e.PointerDown? && !e.PointerUp? && !e.PointerLeave?
    ensures Step(s, e).active == s.active
    ensures Replay(Step(s, e).log).sounding == Replay(s.log).sounding
    ensures forall i :: |s.log| <= i < |Step(s, e).log| ==> !IsTrigger(Step(s, e).log[i])
  {
    CommitKeepsVoice(s, Edit(s.params, e));
  }

  /** The waveform selector and the envelope sliders store the chosen value
      in their own field and nothing else. A change of waveform or of one
      envelope stage sends one combined update carrying all five current
      values; a change to the same value sends nothing. */
  lemma SettingsChangeSendsCombinedUpdate(s: State, e: Event)
    requires e.SelectWaveform? || e.SlideAttack? || e.SlideDecay? || e.SlideSustain? || e.SlideRelease?
    ensures e.SelectWaveform? ==> Step(s, e).params == s.params.(waveform := e.waveform)
    ensures e.SlideAttack? ==>
      Step(s, e).params == s.params.(envelope := s.params.envelope.(attack := e.attack))
    ensures e.SlideDecay? ==>
      Step(s, e).params == s.params.(envelope := s.params.envelope.(decay := e.decay))
    ensures e.SlideSustain? ==>
      Step(s, e).params == s.params.(envelope := s.params.envelope.(sustain := e.sustain))
    ensures e.SlideRelease? ==>
      Step(s, e).params == s.params.(envelope := s.params.envelope.(release := e.release))
    ensures var p := Step(s, e).params;
      Step(s, e).log ==
        if (p.waveform, p.envelope) == (s.params.waveform, s.params.envelope) then s.log
        else s.log + [SetParams(p.waveform, p.envelope)]
    ensures Step(s, e).params.volume == s.params.volume
    ensures Step(s, e).params.muted == s.params.muted
  {
  }

  /** The volume slider stores its value and the mute button flips the flag,
      each leaving the rest of the record alone. A change of either sends the
      new effective level; the stored volume survives muting. */
  lemma LevelChangeSendsLevel(s: State, e: Event)
    requires e.SlideVolume? || e.ClickMute?
    ensures e.SlideVolume? ==> Step(s, e).params == s.params.(volume := e.volume)
    ensures e.ClickMute? ==> Step(s, e).params == s.params.(muted := !s.params.muted)
    ensures var p := Step(s, e).params;
      Step(s, e).log ==
        if (p.volume, p.muted) == (s.params.volume, s.params.muted) then s.log
        else s.log + [SetVolume(EffectiveLevel(p))]
    ensures Step(s, e).params.waveform == s.params.waveform
    ensures Step(s, e).params.envelope == s.params.envelope
    ensures e.ClickMute? ==> Step(s, e).params.volume == s.params.volume
  {
  }

  /** Two clicks on the mute button restore the record and give the voice
      back the level it had. */
  lemma MuteTwiceRestores(s: State)
    requires Inv(s)
    ensures Step(Step(s, ClickMute), ClickMute).params == s.params
    ensures Replay(Step(Step(s, ClickMute), ClickMute).log).level == Replay(s.log).level
    ensures !s.params.muted ==> Replay(Step(s, ClickMute).log).level == Some(Silent)
  {
    ToggleMuteTwice(s.params);
  }
}

=== FILE: voice.dfy ===
/**
 * The single (monophonic) voice of the audio engine, seen only through the
 * commands sent to it. The engine itself is not modelled: its observable
 * state is what replaying the command log yields.
 */
module Voice {
  import opened Wrappers
  import opened Keyboard
  import opened Params

  /** The commands the synthesizer sends to its voice. `Release` carries no
      pitch: it releases whatever the voice is sounding. */
  datatype Command =
    | Attack(note: Note)
    | Release
    | SetParams(waveform: Waveform, envelope: Envelope)
    | SetVolume(level: Level)

  /** Attack and release are the commands that start or stop sound. */
  predicate IsTrigger(c: Command) {
    c.Attack? || c.Release?
  }

  /** What the voice is sounding and the settings and level it was last given
      (`None` before the first such command). */
  datatype VoiceState = VoiceState(
    sounding: Option<Note>,
    settings: Option<(Waveform, Envelope)>,
    level: Option<Level>)

  const Unset := VoiceState(None, None, None)

  /** The effect of one command. An attack replaces whatever pitch was sounding. */
  function Perform(v: VoiceState, c: Command): VoiceState {
    match c
    case Attack(n) => v.(sounding := Some(n))
    case Release => v.(sounding := None)
    case SetParams(w, e) => v.(settings := Some((w, e)))
    case SetVolume(l) => v.(level := Some(l))
  }

  /** The voice after performing a whole log, oldest command first. */
  function Replay(log: seq<Command>): VoiceState
    decreases |log|
  {
    if log == [] then Unset
    else Perform(Replay(log[..|log| - 1]), log[|log| - 1])
  }

  /** Sending one more command performs it on the voice as it was. */
  lemma ReplayAppend(log: seq<Command>, c: Command)
    ensures Replay(log + [c]) == Perform(Replay(log), c)
  {
    assert (log + [c])[..|log|] == log;
  }

  /** Whatever the voice sounds, and every setting it holds, was sent by
      some command of the log. */
  lemma {:induction false} ReplayProvenance(log: seq<Command>)
    ensures Replay(log).sounding.Some? ==> Attack(Replay(log).sounding.value) in log
    ensures Replay(log).settings.Some? ==>
      SetParams(Replay(log).settings.value.0, Replay(log).settings.value.1) in log
    ensures Replay(log).level.Some? ==> SetVolume(Replay(log).level.value) in log
    decreases |log|
  {
    if log != [] {
      ReplayProvenance(log[..|log| - 1]);
    }
  }

  /** No attack or release follows position `i` of the log. */
  predicate NoTriggerAfter(log: seq<Command>, i: int) {
    forall j :: 0 <= j < |log| && i < j ==> !IsTrigger(log[j])
  }

  /** The voice sounds `n` exactly when the last attack-or-release command of
      the log is `Attack(n)`: the most recent attack wins. */
  lemma {:induction false} SoundingIsLastAttack(log: seq<Command>, n: Note)
    ensures Replay(log).sounding == Some(n) <==>
      exists i :: 0 <= i < |log| && log[i] == Attack(n) && NoTriggerAfter(log, i)
  {
    if log != [] {
      var init, c := log[..|log| - 1], log[|log| - 1];
      assert log == init + [c];
      ReplayAppend(init, c);
      if IsTrigger(c) {
        if c == Attack(n) {
          assert NoTriggerAfter(log, |log| - 1);
        } else {
          forall i | 0 <= i < |log| && log[i] == Attack(n)
            ensures !NoTriggerAfter(log, i)
          {
            assert i < |log| - 1;
          }
        }
      } else {
        SoundingIsLastAttack(init, n);
        if Replay(log).sounding == Some(n) {
          var i :| 0 <= i < |init| && init[i] == Attack(n) && NoTriggerAfter(init, i);
          assert log[i] == Attack(n) && NoTriggerAfter(log, i);
        }
        forall i | 0 <= i < |log| && log[i] == Attack(n) && NoTriggerAfter(log, i)
          ensures Replay(log).sounding == Some(n)
        {
          assert i < |init| && init[i] == Attack(n) && NoTriggerAfter(init, i);
        }
      }
    }
  }

  /** After a release that no attack follows, the voice is silent, whatever
      pitch the release was meant for. */
  lemma SilentAfterLastRelease(log: seq<Command>, i: int)
    requires 0 <= i < |log| && log[i] == Release
    requires forall j :: 0 <= j < |log| && i < j ==> !log[j].Attack?
    ensures Replay(log).sounding == None
  {
    forall n: Note ensures Replay(log).sounding != Some(n) {
      SoundingIsLastAttack(log, n);
      forall j | 0 <= j < |log| && log[j] == Attack(n)
        ensures !NoTriggerAfter(log, j)
      {
        if j < i {
          assert IsTrigger(log[i]);
        }
      }
    }
  }
}

=== FILE: wrappers.dfy ===
/** The optional value returned by lookups that may miss. */
module Wrappers {

  /** `None` stands for JavaScript's `undefined` result of a missing key. */
  datatype Option<+T> = None | Some(value: T)
}
